=== FILE: README.md ===
# DineUp ordering backend: a Dafny model of the cart → order → payment workflow

DineUp is a multi-tenant restaurant ordering backend built on Django and
Django REST Framework. A customer browses the available menu items, fills a
cart, checks the cart out into an order with one line item per cart item, and
records a payment against the order. Role-based permission classes gate the
administration routes.

This project models that workflow as a sequential state machine over an
abstract database. The database (`Models.Store`) is a record of maps from
primary key to row: users, menu items, carts, orders, order items, payments,
transactions, tables and social accounts. Every view action and serializer
write is a pure function. It takes the store before the request and returns
either an error (`Outcomes.Err`, which carries no store, so nothing was
written) or the new store. The cart endpoint is the exception: get_or_create
writes before validation runs, so `Views.CartViewCreate` and
`Views.CartViewCreateAsWritten` return a `Views.Reply`, whose error answer
carries the store get_or_create left behind. Money is integer cents.

Modules, one per source file, plus three helpers (Outcomes, Ids, Text) and the cross-operation properties (Workflow):

- `Outcomes` (outcomes.dfy): `Option`, `Result` and the error conditions the
  code raises.
- `Ids` (ids.dfy): the lowest key of a set (what `.first()` on an unordered
  queryset returns) and a fresh key above all keys in use (an auto-increment
  primary key).
- `Text` (text.dfy): Python's `str.strip()`. Django REST Framework's
  CharField strips every string it accepts before the blank check, before
  its validators and before it stores the value. Its validators always
  include one that refuses the character U+0000 (`Serializers.CharFieldAccepts`);
  a field that allows blank accepts a blank value before any validator runs.
- `Models` (models.dfy): the records of main_app/models.py, the store, the
  check and uniqueness constraints, and constraint-checked `save()`s.
- `Permissions` (permissions.dfy): the three role classes, measured against a
  closed `Role` enumeration.
- `Serializers` (serializers.dfy): item-id resolution, cart create and
  update, and the read-only field sets of the order, payment and profile
  serializers. It also has registration. A full update (PUT) must send
  every required field; a partial one (PATCH) may leave any out.
- `Views` (views.dfy): the querysets, clear, checkout, payment recording,
  owner-scoped updates, and the cart endpoint as written and as corrected.
- `Workflow` (workflow.dfy): the properties that relate several operations.

What the code does, and where it departs from the intended design:

- A cart's `total_price` is never recomputed. It starts at 0, an item update
  leaves it alone, and clear and checkout reset it to 0. So every cart
  operation keeps all cart totals at 0 (`Workflow.CartTotalsZero`). An order
  copies the stored total, so its total is not the sum of its line prices.
  `Workflow.TwoItemCheckoutExample` shows this: items of 1000 and 1500 cents
  give line items of 1000 and 1500 cents under an order whose total is 0.
- Checkout reads the user's first cart, the one with the lowest primary key.
  A missing cart and an empty cart both give the same "Cart is empty" error.
- A payment is saved with the column's default status `''` and then set to
  `'completed'`. It is never `'pending'`. Its restaurant is the requester's
  restaurant, not the order's. Its order may be any existing order, and its
  amount is not compared with the order total.
- The menu listing filters on availability only, not on the requester's
  restaurant. A cart's `item_ids` accepts any existing menu item, whether
  available or not and from any restaurant.
- The role checks compare exact strings. The lower-case roles that
  main_app/management/commands/populate_fake_data.py:38 assigns (`'admin'`,
  `'staff'`, `'customer'`) pass none of them. IsStaffUserCustom and
  IsCustomerUserCustom are attached to no view. DineUp/urls.py:24 mounts the
  `staff/orders` route on OrderViewSet, which requires only authentication.

## Model

| member | source | states |
|---|---|---|
| Text.TrimStartSpec | main_app/serializers.py:68-104 | what `lstrip` keeps is a suffix of the input, everything cut off is whitespace, and the result does not start with whitespace |
| Text.TrimEndSpec | main_app/serializers.py:68-104 | what `rstrip` keeps is a prefix of the input, everything cut off is whitespace, and the result does not end with whitespace |
| Text.StripSpec | main_app/serializers.py:68-104 | what `strip` keeps is a slice of the input with only whitespace around it, and it neither starts nor ends with whitespace |
| Text.StripBlankIffAllSpace | main_app/serializers.py:68-104 | a string strips to blank iff it is all whitespace, so DRF's blank check refuses exactly the all-whitespace strings |
| Text.StripIdempotent | main_app/serializers.py:68-104 | stripping twice is stripping once |
| Models.SaveMenuItem | main_app/models.py:95-98 | a menu item write succeeds iff its price is ≥ 0; a negative price fails `chk_price_non_negative` and writes nothing; a successful write keeps the store valid |
| Models.SaveTransaction | main_app/models.py:171-174 | a transaction write succeeds iff its amount is ≥ 0; a negative amount fails `chk_amount_non_negative`; success keeps the store valid |
| Models.SaveTable | main_app/models.py:63-64 | a table write succeeds iff no other table has the same (restaurant, table number); success keeps the store valid |
| Models.SaveSocialAccount | main_app/models.py:45-50 | a social account write succeeds iff no other account has the same (user, provider) or the same uid; otherwise an integrity error; success keeps the store valid |
| Models.OrderTableAndStatusUnconstrained | main_app/models.py:110-113 | a valid store stays valid when an order's table is set to null or to any existing table and its status to any text |
| Permissions.ParseRole | main_app/permissions.py:8-22 | exactly the strings 'Admin', 'Staff' and 'User' name a role, and the role read from them has that name |
| Permissions.RoleOf | main_app/permissions.py:8-22 | only an authenticated principal has a role, and it has one whenever its role string names one |
| Permissions.PermissionsMatchRoles | main_app/permissions.py:8-22 | the admin, staff and customer checks each hold iff the principal is authenticated and its role string is exactly 'Admin', 'Staff' or 'User' |
| Permissions.RolesMutuallyExclusive | main_app/permissions.py:8-22 | no principal passes two of the three role checks |
| Permissions.UnauthenticatedDenied | main_app/permissions.py:8-22 | a request with no user or with the anonymous user fails all three checks |
| Permissions.LowerCaseRolesGrantNothing | main_app/permissions.py:8-22 | the comparison is case-sensitive: 'admin', 'staff' and 'customer' pass none of the checks |
| Permissions.NonAdminDeniedAdminRoutes | main_app/views.py:123-132 | a customer-role or staff-role principal is refused the restaurant and user management routes |
| Serializers.ResolveItemIds | main_app/serializers.py:32 | an item-id list resolves iff every id is an existing menu item; the result is exactly the set of the listed ids; otherwise a validation error on `item_ids` |
| Serializers.ValidateCart | main_app/serializers.py:32 | cart input validates iff its item list resolves, or no list is sent and the input is partial (a full update must send `item_ids`); the validated set is absent exactly when no list was sent |
| Serializers.CartCreate | main_app/serializers.py:39-44 | a create succeeds iff the input validates and the caller passes an owner and a restaurant to save; the new cart has a fresh key, the supplied item set or the empty set, and total 0; a bad item list is an `item_ids` error |
| Serializers.CartUpdate | main_app/serializers.py:46-51 | an update succeeds iff the input validates (PUT must send `item_ids`); an item list replaces the cart's item set with exactly the listed items; a PATCH without one keeps the set; user, restaurant and total never change; no other cart or table changes |
| Serializers.CartUpdateIgnoresReadOnlyFields | main_app/serializers.py:37 | the user, restaurant and total a client sends do not affect a cart update |
| Serializers.OrderUpdate | main_app/serializers.py:60-66 | an order update writes only the table (null or an existing table); status, total, restaurant and user are unchanged; an unknown table is a validation error |
| Serializers.OrderUpdateIgnoresReadOnlyFields | main_app/serializers.py:66 | the status and total a client sends do not affect an order update |
| Serializers.ValidatePayment | main_app/serializers.py:68-72 | payment input validates iff the order exists, the method is non-blank once stripped and holds no U+0000, and the amount fits the decimal column, each when sent, and a sent non-null transaction id is blank or free of U+0000 once stripped; a full (non-partial) input must send the first three; the method and transaction id are kept stripped, and a null transaction id stays null |
| Serializers.PaymentUpdate | main_app/serializers.py:68-72 | a payment update writes the order, amount, stripped method and stripped transaction id that were sent and keeps the others; status and restaurant never change |
| Serializers.ProfileUpdate | main_app/serializers.py:100-104 | a profile update succeeds iff the sent name is non-blank and free of U+0000 once stripped, or no name is sent on a PATCH; it stores the stripped, non-blank name; email, username, role and restaurant never change |
| Serializers.Register | main_app/serializers.py:74-98 | once the fields validate, registration fails on `password` iff the two stripped passwords differ; it succeeds iff the stripped fields validate (each non-blank and free of U+0000), the stripped passwords agree and the username is free; the new user has a fresh key, username = email = the stripped email, the stripped name, role 'User' and no restaurant; the store stays valid |
| Serializers.RegisterStripsPasswords | main_app/serializers.py:83-86 | the passwords `"pw "` and `"pw"` agree once stripped, so registration with them succeeds when the rest validates |
| Serializers.NullCharacterNameRefused | main_app/serializers.py:100-104 | a name holding U+0000 is refused on PUT and PATCH alike |
| Serializers.BlankNameRefused | main_app/serializers.py:100-104 | a name of one space is blank once stripped and is refused on PUT and PATCH alike |
| Serializers.RegisterIgnoresRequestedRole | main_app/serializers.py:81 | the role a client sends does not affect registration |
| Views.MenuItemList | main_app/views.py:20-23 | the menu listing holds exactly the menu items whose availability is true, unchanged |
| Views.CartList | main_app/views.py:30-31 | the cart listing holds exactly the carts whose user is the requester |
| Views.OrderList | main_app/views.py:55-56 | the order listing holds exactly the orders whose user is the requester |
| Views.PaymentList | main_app/views.py:91-92 | the payment listing holds exactly the payments whose order belongs to the requester |
| Views.FirstCartOf | main_app/views.py:42 | the user's first cart exists iff the user owns a cart, and it is the user's cart with the lowest key |
| Views.Clear | main_app/views.py:40-48 | clear succeeds iff the user owns a cart; it empties the first cart and zeroes its total, keeping its owner and restaurant; every other cart is unchanged; no cart gives not-found |
| Views.CartUpdateView | main_app/views.py:26-31 | updating a cart that is missing or owned by someone else is not-found; on the requester's own cart the answer is exactly the serializer's update (PUT, or PATCH when partial) |
| Views.OrderUpdateView | main_app/views.py:51-56 | updating an order that is missing or owned by someone else is not-found; on the requester's own order the answer is exactly the serializer's update |
| Views.PaymentUpdateView | main_app/views.py:87-92 | updating a payment outside the requester's payment listing is not-found; on a payment in that listing the answer is exactly the serializer's update |
| Views.AddLineItems | main_app/views.py:70-78 | the loop adds exactly one line item per cart item (no duplicates, none missing), each of the new order with quantity 1 and the item's current price, under keys above every existing key; existing line items are untouched |
| Views.Checkout | main_app/views.py:58-84 | checkout fails with EmptyCart iff the user has no cart or the first cart holds no items; on success it adds one order (cart's restaurant, requester, no table, cart's stored total, status 'pending'), the line-item snapshot of the cart, and empties the cart with total 0; nothing else changes |
| Views.RecordPayment | main_app/views.py:94-102 | recording succeeds iff the full input validates and the requester has a restaurant; a validation error is passed on, and a valid input from a requester without a restaurant fails the NOT NULL `restaurant` column; the new payment has a fresh key, status 'completed', the requester's restaurant, and the order, amount, stripped method and stripped (or null) transaction id sent |
| Views.FindOrCreateCart | main_app/views.py:34 | get_or_create succeeds iff a restaurant is given and at most one cart of (user, restaurant) exists; the one match is returned and the store is unchanged; with no match an empty cart with total 0 is added under a fresh key; several matches raise MultipleObjectsReturned; a null restaurant is an integrity error |
| Views.CartViewCreateAsWritten | main_app/views.py:33-38 | the cart endpoint as written always ends in an error: get_or_create's own error is passed on with nothing written, invalid item ids are refused as `item_ids`, and otherwise the tuple raises AttributeError; any cart get_or_create made stays in the store |
| Views.CartViewCreate | main_app/views.py:33-38 | with the pair unpacked, the endpoint (a partial update) succeeds iff get_or_create and validation succeed; it leaves the requester's cart for their restaurant holding exactly the sent items, changes no other cart or table, and adds at most that cart; a failed validation keeps the cart get_or_create made |
| Workflow.CheckoutKeepsValid | main_app/views.py:58-84 | checkout keeps every schema constraint and foreign key of the store |
| Workflow.ClearKeepsValid | main_app/views.py:42-47 | clear keeps the store valid |
| Workflow.CartUpdateKeepsValid | main_app/serializers.py:46-51 | a cart update keeps the store valid |
| Workflow.CartCreateKeepsValid | main_app/serializers.py:39-44 | a cart create for an existing user keeps the store valid |
| Workflow.FindOrCreateCartKeepsValid | main_app/views.py:34 | get_or_create for an existing user keeps the store valid |
| Workflow.OrderUpdateKeepsValid | main_app/serializers.py:60-66 | an order update keeps the store valid |
| Workflow.PaymentUpdateKeepsValid | main_app/serializers.py:68-72 | a payment update keeps the store valid |
| Workflow.ProfileUpdateKeepsValid | main_app/views.py:105-115 | a profile update keeps emails and usernames unique |
| Workflow.RecordPaymentKeepsValid | main_app/views.py:94-102 | recording a payment keeps the store valid |
| Workflow.ClearIdempotent | main_app/views.py:42-47 | clearing twice gives the same result as clearing once, so clearing an already empty cart succeeds |
| Workflow.CartUpdateLastWriterWins | main_app/serializers.py:47-49 | an update with an item list discards what an earlier update set: two updates in a row equal the second alone |
| Workflow.SecondCheckoutFails | main_app/views.py:59-82 | right after a successful checkout, a second checkout by the same user fails with EmptyCart |
| Workflow.EmptyFirstCartRefused | main_app/views.py:59-61 | a user whose first cart is empty cannot check out, even if a later cart has items |
| Workflow.CheckoutVisibleOnlyToBuyer | main_app/views.py:55-69 | the new order is in the buyer's order listing, in no one else's, and other users' order listings are unchanged |
| Workflow.CheckoutLeavesOthersAlone | main_app/views.py:80-82 | checkout leaves other users' cart listings and the menu listing unchanged |
| Workflow.CheckoutLinesMatchCart | main_app/views.py:70-78 | every item of the checked-out cart has a line item of the new order with quantity 1 and that item's price |
| Workflow.ClearKeepsTotalsZero | main_app/views.py:44-46 | clear leaves every cart total at 0 if all were 0 |
| Workflow.CheckoutKeepsTotalsZero | main_app/views.py:80-82 | checkout leaves every cart total at 0 if all were 0 |
| Workflow.CartUpdateKeepsTotalsZero | main_app/serializers.py:46-51 | a cart update leaves every cart total at 0 if all were 0 |
| Workflow.CartCreateKeepsTotalsZero | main_app/models.py:221 | a new cart takes the default total 0 |
| Workflow.CartEndpointKeepsTotalsZero | main_app/views.py:33-38 | get_or_create and the cart endpoint leave every cart total at 0 if all were 0 |
| Workflow.CheckoutTotalIsStoredZero | main_app/views.py:67 | from a store whose cart totals are all 0, the order checkout creates has total 0 |
| Workflow.TwoItemCheckoutExample | main_app/views.py:63-82 | a cart of items priced 1000 and 1500 cents checks out into line items of 1000 and 1500 cents, an order total of 0, and an empty cart |
| Workflow.RecordPaymentIgnoresReadOnlyFields | main_app/serializers.py:72 | the payment status and restaurant a client sends do not affect the recorded payment |
| Workflow.PaymentOnOthersOrderUnlisted | main_app/views.py:91-97 | a payment recorded against another user's order is not in the payer's payment listing |
| Workflow.CartEndpointAsWrittenFails | main_app/views.py:33-38 | for a user with no cart and a valid item list, the endpoint as written fails with AttributeError yet stores a new cart, while the corrected endpoint succeeds |

## Findings

| source | as written | input that shows it | evidently intended | confidence | as-written member | corrected member |
|---|---|---|---|---|---|---|
| main_app/views.py:34 | `cart = Cart.objects.get_or_create(...)` binds the `(object, created)` pair, and the pair is passed to the serializer, so `save()` calls `.items` or `.save()` on a tuple | a user with no cart yet POSTs `item_ids: []` to `/cart/`: an AttributeError, with an empty cart already written | `cart, _ = Cart.objects.get_or_create(...)`, then update that cart | not executed | Views.CartViewCreateAsWritten (shown by Workflow.CartEndpointAsWrittenFails) | Views.CartViewCreate |

## Left out

- Concurrency and atomicity: each request runs alone and to completion. The source has no transaction around checkout and no lock around get_or_create, so no race freedom is claimed.
- HTTP plumbing: status codes, response bodies, serializer JSON rendering, routing (DineUp/urls.py) and admin registration (main_app/admin.py) are not modelled.
- JWT token issue and refresh, and password hashing (`set_password`) are not modelled. The verdicts of Django's `validate_password` and email format validator are boolean parameters of `Serializers.Register`.
- Timestamps (`auto_now`, `auto_now_add`), image uploads, JSON fields and descriptive text columns (descriptions, addresses, contact info) have no behaviour and are not fields of the records.
- Tenant and Category rows: they are referred to by id only. Inventory, Receipt, TemporarySession, Customization and Image are outside the modelled workflow and no modelled operation touches them; their foreign keys and TemporarySession's unique `session_token` are not modelled.
- Decimal precision: money is integer cents, so no rounding happens. Only the magnitude bound of `max_digits=10` is checked, on payment amounts sent by a client.
- Field lengths: the 150-character limit on `username` is not modelled. Registration stores the email as the username, so an email of 151 to 254 characters passes validation and then fails the column in a database that enforces the length. The email's own 254-character limit is part of the `emailWellFormed` verdict.
- Primary keys: a new row's key is one above the largest key in use. This abstracts the database's sequences, which never reuse a key either.
- Iteration order: `cart.items.all()` has no declared order. The model adds line items in ascending menu-item key, and no stated property depends on that order.
- Views.AddLineItems: its contract does not say which new key holds which item, because that depends on the unspecified iteration order.
- Foreign keys: `Models.Valid` covers only the references the workflow follows (cart owner and items, order owner and table, line-item order and item, payment order). Deletion and cascade delete are not modelled, and neither are the `destroy` actions of the view sets.
- The generic create/update/destroy of RestaurantViewSet and UserViewSet is not modelled beyond their permission gate. Registration through UserViewSet behaves like `Serializers.Register`.
- The GET of `user_profile` is a plain read and is not modelled. Its PUT/PATCH is `Serializers.ProfileUpdate`.
- main_app/management/commands/populate_fake_data.py (random fake data written through the ORM) is not part of this model.
- Order status transitions: the code has no transition table. Checkout only ever writes 'pending', and no client input can write the status.

=== FILE: ids.dfy ===
/** Primary keys: picking the lowest key of a non-empty set (what an
    unordered queryset's `.first()` returns) and allocating a fresh key
    above every existing one (an auto-increment column). */
module Ids {

  type Id = nat

  predicate IsMin(m: Id, s: set<Id>) {
    m in s && forall x | x in s :: m <= x
  }

  predicate IsMax(m: Id, s: set<Id>) {
    m in s && forall x | x in s :: x <= m
  }

  lemma {:induction false} MinExists(s: set<Id>)
    requires s != {}
    ensures exists m :: IsMin(m, s)
  {
    var y :| y in s;
    if s != {y} {
      MinExists(s - {y});
      var m :| IsMin(m, s - {y});
      assert forall x | x in s :: x == y || x in s - {y};
      if y < m {
        assert IsMin(y, s);
      } else {
        assert IsMin(m, s);
      }
    } else {
      assert IsMin(y, s);
    }
  }

  lemma {:induction false} MaxExists(s: set<Id>)
    requires s != {}
    ensures exists m :: IsMax(m, s)
  {
    var y :| y in s;
    if s != {y} {
      MaxExists(s - {y});
      var m :| IsMax(m, s - {y});
      assert forall x | x in s :: x == y || x in s - {y};
      if y > m {
        assert IsMax(y, s);
      } else {
        assert IsMax(m, s);
      }
    } else {
      assert IsMax(y, s);
    }
  }

  /** The lowest key of a non-empty set. */
  function MinOf(s: set<Id>): (m: Id)
    requires s != {}
    ensures m in s
    ensures forall x | x in s :: m <= x
  {
    MinExists(s);
    var m :| IsMin(m, s);
    m
  }

  function MaxOf(s: set<Id>): (m: Id)
    requires s != {}
    ensures m in s
    ensures forall x | x in s :: x <= m
  {
    MaxExists(s);
    var m :| IsMax(m, s);
    m
  }

  /** The key an auto-increment column hands out next: 1 for an empty
      table, otherwise one above the largest key in use. */
  function FreshId(s: set<Id>): (k: Id)
    ensures k !in s
    ensures 1 <= k
    ensures forall x | x in s :: x < k
  {
    if s == {} then 1 else MaxOf(s) + 1
  }
}

=== FILE: models.dfy ===
/** The schema of main_app/models.py: one record per model of the core, the
    store of all tables, the row-level constraints the schema declares, and
    the database writes that enforce them.

    Money is held in integer cents (a DecimalField with two decimal places).
    Foreign keys are plain ids; restaurants (tenants) and categories are
    referred to by id only. */
module Models {
  import opened Outcomes
  import opened Ids

  type Cents = int

  /** The largest magnitude a `DecimalField(max_digits=10, decimal_places=2)`
      holds, in cents: eight integer digits and two fractional ones. */
  const MaxDecimalCents: Cents := 9_999_999_999

  predicate FitsDecimal(c: Cents) {
    -MaxDecimalCents <= c <= MaxDecimalCents
  }

  /** The role strings the code compares against; `CustomerRole` is the one
      registration assigns. */
  const AdminRole: string := "Admin"
  const StaffRole: string := "Staff"
  const CustomerRole: string := "User"

  /** The only order status the workflow writes, and the status every
      recorded payment ends in. */
  const PendingStatus: string := "pending"
  const CompletedStatus: string := "completed"

  /** `User` (an AbstractUser): `role` is free text, `restaurant` nullable. */
  datatype User = User(username: string, email: string, name: string, role: string, restaurant: Option<Id>)

  datatype MenuItem = MenuItem(restaurant: Id, category: Id, name: string, price: Cents, available: bool)

  /** A cart holds a set of menu items (a many-to-many relation, so each
      item at most once) and a stored, never recomputed, total. */
  datatype Cart = Cart(user: Id, restaurant: Id, items: set<Id>, totalPrice: Cents)

  /** `table` is nullable and `status` is unconstrained text. */
  datatype Order = Order(restaurant: Id, table: Option<Id>, user: Id, totalPrice: Cents, status: string)

  datatype OrderItem = OrderItem(order: Id, item: Id, quantity: int, price: Cents)

  datatype Payment = Payment(order: Id, restaurant: Id, paymentMethod: string, status: string, amount: Cents, transactionId: Option<string>)

  datatype Transaction = Transaction(order: Id, payment: Id, restaurant: Id, kind: string, amount: Cents, status: string)

  datatype Table = Table(restaurant: Id, number: string, seating: int, link: Option<string>)

  datatype SocialAccount = SocialAccount(user: Id, provider: string, uid: string)

  /** The database: one map from primary key to row per table. */
  datatype Store = Store(
    users: map<Id, User>,
    menuItems: map<Id, MenuItem>,
    carts: map<Id, Cart>,
    orders: map<Id, Order>,
    orderItems: map<Id, OrderItem>,
    payments: map<Id, Payment>,
    transactions: map<Id, Transaction>,
    tables: map<Id, Table>,
    socialAccounts: map<Id, SocialAccount>)

  /** A successful create: the new store and the primary key of the new row. */
  datatype Created = Created(store: Store, id: Id)

  const EmptyStore: Store := Store(map[], map[], map[], map[], map[], map[], map[], map[], map[])

  // Row-level constraints declared by the schema.

  /** `chk_price_non_negative` on MenuItem. */
  predicate PricesNonNegative(m: map<Id, MenuItem>) {
    forall k | k in m :: m[k].price >= 0
  }

  /** `chk_amount_non_negative` on Transaction. */
  predicate AmountsNonNegative(t: map<Id, Transaction>) {
    forall k | k in t :: t[k].amount >= 0
  }

  predicate SameTableSlot(a: Table, b: Table) {
    a.restaurant == b.restaurant && a.number == b.number
  }

  /** `unique_together = ('restaurant', 'table_number')` on Table. */
  predicate TablesUnique(t: map<Id, Table>) {
    forall a, b | a in t && b in t && a != b :: !SameTableSlot(t[a], t[b])
  }

  /** `unique_together = ('user', 'provider')` and `uid` unique on SocialAccount. */
  predicate SocialAccountsUnique(t: map<Id, SocialAccount>) {
    forall a, b | a in t && b in t && a != b ::
      !(t[a].user == t[b].user && t[a].provider == t[b].provider) && t[a].uid != t[b].uid
  }

  /** `email` is unique on User, and so is AbstractUser's `username`. */
  predicate UsersUnique(t: map<Id, User>) {
    forall a, b | a in t && b in t && a != b ::
      t[a].email != t[b].email && t[a].username != t[b].username
  }

  /** The foreign keys the modelled operations follow. */
  predicate ReferencesResolve(s: Store) {
    && (forall c | c in s.carts :: s.carts[c].user in s.users && s.carts[c].items <= s.menuItems.Keys)
    && (forall o | o in s.orders ::
          s.orders[o].user in s.users && (s.orders[o].table.Some? ==> s.orders[o].table.value in s.tables))
    && (forall k | k in s.orderItems :: s.orderItems[k].order in s.orders && s.orderItems[k].item in s.menuItems)
    && (forall p | p in s.payments :: s.payments[p].order in s.orders)
  }

  /** Every state the database can be in. */
  predicate Valid(s: Store) {
    && PricesNonNegative(s.menuItems)
    && AmountsNonNegative(s.transactions)
    && TablesUnique(s.tables)
    && SocialAccountsUnique(s.socialAccounts)
    && UsersUnique(s.users)
    && ReferencesResolve(s)
  }

  // Constraint-checked writes: `save()` with an explicit primary key,
  // inserting or overwriting the row at `k`.

  function SaveMenuItem(s: Store, k: Id, m: MenuItem): (r: Result<Store>)
    ensures r.Ok? <==> m.price >= 0
    ensures r.Err? ==> r.error == Integrity("chk_price_non_negative")
    ensures r.Ok? ==> r.value == s.(menuItems := s.menuItems[k := m])
    ensures r.Ok? && Valid(s) ==> Valid(r.value)
  {
    if m.price < 0 then Err(Integrity("chk_price_non_negative"))
    else Ok(s.(menuItems := s.menuItems[k := m]))
  }

  function SaveTransaction(s: Store, k: Id, t: Transaction): (r: Result<Store>)
    ensures r.Ok? <==> t.amount >= 0
    ensures r.Err? ==> r.error == Integrity("chk_amount_non_negative")
    ensures r.Ok? ==> r.value == s.(transactions := s.transactions[k := t])
    ensures r.Ok? && Valid(s) ==> Valid(r.value)
  {
    if t.amount < 0 then Err(Integrity("chk_amount_non_negative"))
    else Ok(s.(transactions := s.transactions[k := t]))
  }

  function SaveTable(s: Store, k: Id, t: Table): (r: Result<Store>)
    ensures r.Ok? <==> forall j | j in s.tables && j != k :: !SameTableSlot(s.tables[j], t)
    ensures r.Err? ==> r.error == Integrity("unique_restaurant_table_number")
    ensures r.Ok? ==> r.value == s.(tables := s.tables[k := t])
    ensures r.Ok? && Valid(s) ==> Valid(r.value)
  {
    if exists j | j in s.tables && j != k :: SameTableSlot(s.tables[j], t) then
      Err(Integrity("unique_restaurant_table_number"))
    else
      Ok(s.(tables := s.tables[k := t]))
  }

  function SaveSocialAccount(s: Store, k: Id, a: SocialAccount): (r: Result<Store>)
    ensures r.Ok? <==> forall j | j in s.socialAccounts && j != k ::
                         !(s.socialAccounts[j].user == a.user && s.socialAccounts[j].provider == a.provider)
                         && s.socialAccounts[j].uid != a.uid
    ensures r.Err? ==> r.error.Integrity?
    ensures r.Ok? ==> r.value == s.(socialAccounts := s.socialAccounts[k := a])
    ensures r.Ok? && Valid(s) ==> Valid(r.value)
  {
    if exists j | j in s.socialAccounts && j != k :: s.socialAccounts[j].uid == a.uid then
      Err(Integrity("unique_uid"))
    else if exists j | j in s.socialAccounts && j != k ::
              s.socialAccounts[j].user == a.user && s.socialAccounts[j].provider == a.provider then
      Err(Integrity("unique_user_provider"))
    else
      Ok(s.(socialAccounts := s.socialAccounts[k := a]))
  }

  /** A nullable table and any status text are always accepted for an
      order: the schema constrains neither. */
  lemma OrderTableAndStatusUnconstrained(s: Store, o: Id, table: Option<Id>, status: string)
    requires Valid(s) && o in s.orders
    requires table.Some? ==> table.value in s.tables
    ensures Valid(s.(orders := s.orders[o := s.orders[o].(table := table, status := status)]))
  {
  }
}

=== FILE: outcomes.dfy ===
/** Outcome types shared by every operation of the model.

    An operation of the backend either answers with an error (and writes
    nothing to the store) or succeeds with a new store. Errors name the
    condition the Django code reports, not the HTTP status it maps to. */
module Outcomes {

  datatype Option<+T> = None | Some(value: T)

  /** The error conditions the views, serializers and database raise. */
  datatype Error =
    | EmptyCart                     // checkout with no cart or an empty cart
    | NotFound                      // row absent, or not in the requester's queryset
    | Invalid(field: string)        // serializer ValidationError on a field
    | Integrity(constraint: string) // database IntegrityError (NOT NULL, CHECK, UNIQUE)
    | MultipleObjectsReturned       // get() inside get_or_create matched several rows
    | AttributeError                // Python attribute lookup on the wrong object

  datatype Result<+T> = Ok(value: T) | Err(error: Error)
}

=== FILE: permissions.dfy ===
/** The role gates of main_app/permissions.py.

    Each permission class holds when a user is attached to the request, that
    user is authenticated, and the free-text `role` is exactly one string.
    The closed enumeration `Role` is the reference the free-text checks are
    measured against. */
module Permissions {
  import opened Outcomes
  import opened Ids
  import opened Models

  /** Who a request comes from: no user at all, Django's anonymous user, or
      an authenticated row of the user table. */
  datatype Principal = NoUser | Anonymous | Authenticated(id: Id, user: User)

  /** `request.user and request.user.is_authenticated`, the guard shared by
      the three classes and by DRF's IsAuthenticated. */
  predicate IsAuthenticated(p: Principal) {
    p.Authenticated?
  }

  predicate HasRole(p: Principal, role: string) {
    IsAuthenticated(p) && p.user.role == role
  }

  /** IsAdminUserCustom. */
  predicate IsAdmin(p: Principal) {
    HasRole(p, AdminRole)
  }

  /** IsStaffUserCustom. */
  predicate IsStaff(p: Principal) {
    HasRole(p, StaffRole)
  }

  /** IsCustomerUserCustom. */
  predicate IsCustomer(p: Principal) {
    HasRole(p, CustomerRole)
  }

  datatype Role = Admin | Staff | Customer

  function RoleName(r: Role): string {
    match r
    case Admin => AdminRole
    case Staff => StaffRole
    case Customer => CustomerRole
  }

  /** Reads a role string as one of the three capabilities; any other text,
      including a differently cased name, is no role at all. */
  function ParseRole(s: string): (r: Option<Role>)
    ensures r.Some? <==> s == AdminRole || s == StaffRole || s == CustomerRole
    ensures r.Some? ==> RoleName(r.value) == s
  {
    if s == AdminRole then Some(Admin)
    else if s == StaffRole then Some(Staff)
    else if s == CustomerRole then Some(Customer)
    else None
  }

  /** The capability of an authenticated principal, none for everyone else. */
  function RoleOf(p: Principal): (r: Option<Role>)
    ensures r.Some? ==> IsAuthenticated(p) && RoleName(r.value) == p.user.role
    ensures IsAuthenticated(p) && ParseRole(p.user.role).Some? ==> r.Some?
  {
    if p.Authenticated? then ParseRole(p.user.role) else None
  }

  /** Each permission class grants exactly the principals of its role. */
  lemma PermissionsMatchRoles(p: Principal)
    ensures IsAdmin(p) <==> RoleOf(p) == Some(Admin)
    ensures IsStaff(p) <==> RoleOf(p) == Some(Staff)
    ensures IsCustomer(p) <==> RoleOf(p) == Some(Customer)
  {
  }

  /** No principal passes two of the three checks. */
  lemma RolesMutuallyExclusive(p: Principal)
    ensures !(IsAdmin(p) && IsStaff(p))
    ensures !(IsAdmin(p) && IsCustomer(p))
    ensures !(IsStaff(p) && IsCustomer(p))
  {
  }

  lemma UnauthenticatedDenied(p: Principal)
    requires p.NoUser? || p.Anonymous?
    ensures !IsAdmin(p) && !IsStaff(p) && !IsCustomer(p)
  {
  }

  /** The comparison is case-sensitive: the lower-case names that
      populate_fake_data.py assigns to users grant none of the roles. */
  lemma LowerCaseRolesGrantNothing(id: Id, u: User)
    requires u.role == "admin" || u.role == "staff" || u.role == "customer"
    ensures !IsAdmin(Authenticated(id, u))
    ensures !IsStaff(Authenticated(id, u))
    ensures !IsCustomer(Authenticated(id, u))
  {
  }

  /** The gate on the restaurant and user management routes:
      `[IsAuthenticated, IsAdminUserCustom]`. */
  predicate AdminRouteAllowed(p: Principal) {
    IsAuthenticated(p) && IsAdmin(p)
  }

  /** A customer-role or staff-role principal is refused the admin routes. */
  lemma NonAdminDeniedAdminRoutes(p: Principal)
    requires RoleOf(p) == Some(Customer) || RoleOf(p) == Some(Staff)
    ensures !AdminRouteAllowed(p)
  {
  }
}

=== FILE: serializers.dfy ===
/** The serializers of main_app/serializers.py that carry behaviour: which
    client fields are written and which are read-only, the set-replace
    semantics of a cart's items, and user registration.

    Each `...Input` datatype is what a client may send; a field the
    serializer declares read-only is part of the input and provably has no
    effect. `None` is an absent field. */
module Serializers {
  import opened Outcomes
  import opened Ids
  import opened Models
  import opened Text

  // Cart

  /** `item_ids` is the one writable field of CartSerializer; `user`,
      `restaurant` and `total_price` are read-only. */
  datatype CartInput = CartInput(itemIds: Option<seq<Id>>, user: Option<Id>, restaurant: Option<Id>, totalPrice: Option<Cents>)

  /** `item_ids`: primary keys over every menu item (any restaurant, any
      availability); duplicates collapse into one set member. */
  function ResolveItemIds(s: Store, ids: seq<Id>): (r: Result<set<Id>>)
    ensures r.Ok? <==> forall i | 0 <= i < |ids| :: ids[i] in s.menuItems
    ensures r.Err? ==> r.error == Invalid("item_ids")
    ensures r.Ok? ==> (forall x | x in r.value :: x in ids) && (forall i | 0 <= i < |ids| :: ids[i] in r.value)
    ensures r.Ok? ==> r.value <= s.menuItems.Keys
  {
    if forall i | 0 <= i < |ids| :: ids[i] in s.menuItems then Ok(set x | x in ids) else Err(Invalid("item_ids"))
  }

  /** The validated item set of a cart input: absent when the client sent
      no `item_ids`, which only a `partial` (PATCH) input may do, since the
      field is declared without `required=False`. */
  function ValidateCart(s: Store, input: CartInput, partial: bool): (r: Result<Option<set<Id>>>)
    ensures r.Ok? <==> (if input.itemIds.Some? then ResolveItemIds(s, input.itemIds.value).Ok? else partial)
    ensures r.Err? ==> r.error == Invalid("item_ids")
    ensures r.Ok? ==> (r.value.None? <==> input.itemIds.None?)
    ensures r.Ok? && r.value.Some? ==> r.value.value == ResolveItemIds(s, input.itemIds.value).value
  {
    match input.itemIds
    case None => if partial then Ok(None) else Err(Invalid("item_ids"))
    case Some(ids) =>
      match ResolveItemIds(s, ids)
      case Ok(items) => Ok(Some(items))
      case Err(e) => Err(e)
  }

  /** CartSerializer.create. `user` and `restaurant` are what the caller of
      `save()` supplies (the client cannot); a missing one violates NOT NULL.
      The item set is the supplied one, or empty; the total takes the
      column default 0. */
  function CartCreate(s: Store, input: CartInput, partial: bool, user: Option<Id>, restaurant: Option<Id>): (r: Result<Created>)
    ensures ValidateCart(s, input, partial).Err? ==> r.Err? && r.error == Invalid("item_ids")
    ensures r.Ok? <==> ValidateCart(s, input, partial).Ok? && user.Some? && restaurant.Some?
    ensures r.Ok? ==>
      var items := if input.itemIds.Some? then ResolveItemIds(s, input.itemIds.value).value else {};
      && r.value.id !in s.carts
      && r.value.store == s.(carts := s.carts[r.value.id := Cart(user.value, restaurant.value, items, 0)])
  {
    match ValidateCart(s, input, partial)
    case Err(e) => Err(e)
    case Ok(items) =>
      if user.None? then Err(Integrity("user"))
      else if restaurant.None? then Err(Integrity("restaurant"))
      else
        var k := FreshId(s.carts.Keys);
        var chosen := if items.Some? then items.value else {};
        Ok(Created(s.(carts := s.carts[k := Cart(user.value, restaurant.value, chosen, 0)]), k))
  }

  /** CartSerializer.update on the existing cart `k`: the item set is
      replaced wholesale when `item_ids` is sent and kept otherwise (PATCH,
      when `partial`); nothing else is written. */
  function CartUpdate(s: Store, k: Id, input: CartInput, partial: bool): (r: Result<Store>)
    requires k in s.carts
    ensures r.Ok? <==> ValidateCart(s, input, partial).Ok?
    ensures r.Err? ==> r.error == Invalid("item_ids")
    ensures r.Ok? ==> r.value.carts.Keys == s.carts.Keys
    ensures r.Ok? ==> forall c | c in s.carts && c != k :: r.value.carts[c] == s.carts[c]
    ensures r.Ok? ==>
      var after := r.value.carts[k];
      && after.user == s.carts[k].user
      && after.restaurant == s.carts[k].restaurant
      && after.totalPrice == s.carts[k].totalPrice
      && (input.itemIds.None? ==> after.items == s.carts[k].items)
      && (input.itemIds.Some? ==> forall x :: x in after.items <==> x in input.itemIds.value)
    ensures r.Ok? ==> r.value == s.(carts := r.value.carts)
  {
    match ValidateCart(s, input, partial)
    case Err(e) => Err(e)
    case Ok(None) => Ok(s)
    case Ok(Some(items)) => Ok(s.(carts := s.carts[k := s.carts[k].(items := items)]))
  }

  // Order and payment: the fields a client may write after creation.

  /** OrderSerializer input: only `table` is writable. `Some(None)` sends a
      null table. */
  datatype OrderInput = OrderInput(table: Option<Option<Id>>, restaurant: Option<Id>, user: Option<Id>, totalPrice: Option<Cents>, status: Option<string>)

  /** OrderSerializer's update of order `k`: writes the table (which must
      exist, or be null) and leaves every read-only column as it was. */
  function OrderUpdate(s: Store, k: Id, input: OrderInput): (r: Result<Store>)
    requires k in s.orders
    ensures r.Ok? <==> (input.table.Some? && input.table.value.Some? ==> input.table.value.value in s.tables)
    ensures r.Err? ==> r.error == Invalid("table")
    ensures r.Ok? ==> r.value.orders.Keys == s.orders.Keys
    ensures r.Ok? ==> forall o | o in s.orders && o != k :: r.value.orders[o] == s.orders[o]
    ensures r.Ok? ==>
      var after := r.value.orders[k];
      && after.status == s.orders[k].status
      && after.totalPrice == s.orders[k].totalPrice
      && after.restaurant == s.orders[k].restaurant
      && after.user == s.orders[k].user
      && after.table == (if input.table.Some? then input.table.value else s.orders[k].table)
    ensures r.Ok? ==> r.value == s.(orders := r.value.orders)
  {
    match input.table
    case None => Ok(s)
    case Some(t) =>
      if t.Some? && t.value !in s.tables then Err(Invalid("table"))
      else Ok(s.(orders := s.orders[k := s.orders[k].(table := t)]))
  }

  /** PaymentSerializer input: `restaurant` and `payment_status` are
      read-only. `transactionId` is nullable and optional. */
  datatype PaymentInput = PaymentInput(
    order: Option<Id>, paymentMethod: Option<string>, amount: Option<Cents>,
    transactionId: Option<Option<string>>, restaurant: Option<Id>, status: Option<string>)

  /** The payment fields a client may write, once validated. */
  datatype PaymentFields = PaymentFields(order: Option<Id>, paymentMethod: Option<string>, amount: Option<Cents>, transactionId: Option<Option<string>>)

  /** DRF's CharField on a sent string (blank not allowed): the stripped
      value must be non-blank, and ProhibitNullCharactersValidator refuses
      U+0000. */
  predicate CharFieldAccepts(raw: string) {
    var v := Strip(raw);
    v != "" && '\0' !in v
  }

  /** The same for a CharField that allows blank: a blank value is accepted
      before any validator runs. */
  predicate BlankableCharFieldAccepts(raw: string) {
    var v := Strip(raw);
    v == "" || '\0' !in v
  }

  /** A sent string as the serializer keeps it: stripped. */
  function StripSent(o: Option<string>): Option<string> {
    if o.Some? then Some(Strip(o.value)) else None
  }

  /** A sent nullable string as the serializer keeps it: null stays null,
      text is stripped. */
  function StripNullable(o: Option<Option<string>>): Option<Option<string>> {
    if o.Some? && o.value.Some? then Some(Some(Strip(o.value.value))) else o
  }

  /** Field validation of PaymentSerializer. `order` may be any existing
      order; the method must pass CharField's checks; the amount must fit
      the decimal column and may be negative. Without `partial` the three
      are required. The two text fields are kept stripped; the transaction
      id may be null or blank, and otherwise must not hold U+0000. */
  function ValidatePayment(s: Store, input: PaymentInput, partial: bool): (r: Result<PaymentFields>)
    ensures r.Ok? <==>
      && (if input.order.Some? then input.order.value in s.orders else partial)
      && (if input.paymentMethod.Some? then CharFieldAccepts(input.paymentMethod.value) else partial)
      && (if input.amount.Some? then FitsDecimal(input.amount.value) else partial)
      && (input.transactionId.Some? && input.transactionId.value.Some? ==> BlankableCharFieldAccepts(input.transactionId.value.value))
    ensures r.Err? ==> r.error.Invalid?
    ensures r.Ok? ==> r.value.order == input.order && r.value.amount == input.amount
    ensures r.Ok? ==> (r.value.paymentMethod.Some? <==> input.paymentMethod.Some?)
    ensures r.Ok? && input.paymentMethod.Some? ==>
      r.value.paymentMethod.value == Strip(input.paymentMethod.value) && r.value.paymentMethod.value != ""
    ensures r.Ok? ==> (r.value.transactionId.Some? <==> input.transactionId.Some?)
    ensures r.Ok? && input.transactionId.Some? ==>
      (r.value.transactionId.value.None? <==> input.transactionId.value.None?)
    ensures r.Ok? && input.transactionId.Some? && input.transactionId.value.Some? ==>
      r.value.transactionId.value.value == Strip(input.transactionId.value.value)
  {
    if (if input.order.Some? then input.order.value !in s.orders else !partial) then Err(Invalid("order"))
    else if (if input.paymentMethod.Some? then !CharFieldAccepts(input.paymentMethod.value) else !partial) then Err(Invalid("payment_method"))
    else if (if input.amount.Some? then !FitsDecimal(input.amount.value) else !partial) then Err(Invalid("amount"))
    else if input.transactionId.Some? && input.transactionId.value.Some? && !BlankableCharFieldAccepts(input.transactionId.value.value) then Err(Invalid("transaction_id"))
    else Ok(PaymentFields(input.order, StripSent(input.paymentMethod), input.amount, StripNullable(input.transactionId)))
  }

  function Pick<T>(o: Option<T>, default: T): T {
    if o.Some? then o.value else default
  }

  /** PaymentSerializer's update of payment `k`: the writable fields sent are
      written (text stripped), the status and restaurant stay as they were. */
  function PaymentUpdate(s: Store, k: Id, input: PaymentInput, partial: bool): (r: Result<Store>)
    requires k in s.payments
    ensures r.Ok? <==> ValidatePayment(s, input, partial).Ok?
    ensures r.Ok? ==> r.value.payments.Keys == s.payments.Keys
    ensures r.Ok? ==> forall p | p in s.payments && p != k :: r.value.payments[p] == s.payments[p]
    ensures r.Ok? ==>
      var before, after := s.payments[k], r.value.payments[k];
      && after.status == before.status
      && after.restaurant == before.restaurant
      && after.order == (if input.order.Some? then input.order.value else before.order)
      && after.amount == (if input.amount.Some? then input.amount.value else before.amount)
      && after.paymentMethod == (if input.paymentMethod.Some? then Strip(input.paymentMethod.value) else before.paymentMethod)
      && after.transactionId == (if input.transactionId.Some? then StripNullable(input.transactionId).value else before.transactionId)
    ensures r.Ok? ==> r.value == s.(payments := r.value.payments)
  {
    match ValidatePayment(s, input, partial)
    case Err(e) => Err(e)
    case Ok(f) =>
      var p := s.payments[k];
      var p' := p.(order := Pick(f.order, p.order),
                   paymentMethod := Pick(f.paymentMethod, p.paymentMethod),
                   amount := Pick(f.amount, p.amount),
                   transactionId := Pick(f.transactionId, p.transactionId));
      Ok(s.(payments := s.payments[k := p']))
  }

  // Profile

  /** UserProfileSerializer input: only `name` is writable. */
  datatype ProfileInput = ProfileInput(name: Option<string>, email: Option<string>, role: Option<string>)

  /** UserProfileSerializer's update of user `k` (PUT, or PATCH when
      `partial`): a sent name must be non-blank once stripped and a full
      update must send one; the stripped name is stored; email and role are
      never written. */
  function ProfileUpdate(s: Store, k: Id, input: ProfileInput, partial: bool): (r: Result<Store>)
    requires k in s.users
    ensures r.Ok? <==> (if input.name.Some? then CharFieldAccepts(input.name.value) else partial)
    ensures r.Err? ==> r.error == Invalid("name")
    ensures r.Ok? ==> r.value.users.Keys == s.users.Keys
    ensures r.Ok? ==> forall j | j in s.users && j != k :: r.value.users[j] == s.users[j]
    ensures r.Ok? ==>
      var before, after := s.users[k], r.value.users[k];
      && after.email == before.email && after.username == before.username
      && after.role == before.role && after.restaurant == before.restaurant
      && after.name == (if input.name.Some? then Strip(input.name.value) else before.name)
    ensures r.Ok? && input.name.Some? ==> r.value.users[k].name != ""
    ensures r.Ok? ==> r.value == s.(users := r.value.users)
  {
    match input.name
    case None => if partial then Ok(s) else Err(Invalid("name"))
    case Some(n) =>
      var name := Strip(n);
      if !CharFieldAccepts(n) then Err(Invalid("name"))
      else Ok(s.(users := s.users[k := s.users[k].(name := name)]))
  }

  // Registration

  /** UserSerializer input: `role` is read-only. Every string is the raw
      value the client sent. */
  datatype RegisterInput = RegisterInput(name: string, email: string, password: string, password2: string, role: Option<string>)

  predicate EmailTaken(users: map<Id, User>, email: string) {
    exists j | j in users :: users[j].email == email
  }

  predicate UsernameTaken(users: map<Id, User>, username: string) {
    exists j | j in users :: users[j].username == username
  }

  /** Field-level validation, run before `validate`, on the stripped
      values, each of which must pass CharField's checks.
      `emailWellFormed` and `passwordAccepted` are the verdicts of the
      EmailField's validators (format, at most 254 characters) and of
      `validate_password` on the stripped email and password, which are
      not part of this model. */
  predicate RegisterFieldsValid(s: Store, input: RegisterInput, emailWellFormed: bool, passwordAccepted: bool) {
    && CharFieldAccepts(input.name)
    && CharFieldAccepts(input.email) && emailWellFormed && !EmailTaken(s.users, Strip(input.email))
    && CharFieldAccepts(input.password) && passwordAccepted
    && CharFieldAccepts(input.password2)
  }

  /** UserSerializer: field validation, then `validate` (the two stripped
      passwords must agree), then `create`, which stores the user with
      username = email, role 'User' and no restaurant. Password hashing is
      not modelled. */
  function Register(s: Store, input: RegisterInput, emailWellFormed: bool, passwordAccepted: bool): (r: Result<Created>)
    ensures r.Err? ==> r.error.Invalid? || r.error == Integrity("username")
    ensures RegisterFieldsValid(s, input, emailWellFormed, passwordAccepted) ==>
              (r == Err(Invalid("password")) <==> Strip(input.password) != Strip(input.password2))
    ensures r.Ok? <==> (&& RegisterFieldsValid(s, input, emailWellFormed, passwordAccepted)
                        && Strip(input.password) == Strip(input.password2)
                        && !UsernameTaken(s.users, Strip(input.email)))
    ensures r.Ok? ==>
      var email := Strip(input.email);
      && r.value.id !in s.users
      && r.value.store == s.(users := s.users[r.value.id := User(email, email, Strip(input.name), CustomerRole, None)])
    ensures r.Ok? && Valid(s) ==> Valid(r.value.store)
  {
    var name, email, password, password2 := Strip(input.name), Strip(input.email), Strip(input.password), Strip(input.password2);
    if !CharFieldAccepts(input.name) then Err(Invalid("name"))
    else if !CharFieldAccepts(input.email) || !emailWellFormed || EmailTaken(s.users, email) then Err(Invalid("email"))
    else if !CharFieldAccepts(input.password) || !passwordAccepted then Err(Invalid("password"))
    else if !CharFieldAccepts(input.password2) then Err(Invalid("password2"))
    else if password != password2 then Err(Invalid("password"))
    else if UsernameTaken(s.users, email) then Err(Integrity("username"))
    else
      var k := FreshId(s.users.Keys);
      AddUserKeepsValid(s, k, User(email, email, name, CustomerRole, None));
      Ok(Created(s.(users := s.users[k := User(email, email, name, CustomerRole, None)]), k))
  }

  /** A new user row whose email and username are both unused keeps the
      store valid. */
  lemma AddUserKeepsValid(s: Store, k: Id, u: User)
    requires k !in s.users && !EmailTaken(s.users, u.email) && !UsernameTaken(s.users, u.username)
    ensures Valid(s) ==> Valid(s.(users := s.users[k := u]))
  {
  }

  /** The passwords are compared once stripped: "pw " and "pw" agree. */
  lemma RegisterStripsPasswords(s: Store, input: RegisterInput, emailWellFormed: bool, passwordAccepted: bool)
    requires RegisterFieldsValid(s, input, emailWellFormed, passwordAccepted)
    requires !UsernameTaken(s.users, Strip(input.email))
    requires input.password == "pw " && input.password2 == "pw"
    ensures Register(s, input, emailWellFormed, passwordAccepted).Ok?
  {
    StripTrailingSpace();
  }

  /** A name holding U+0000 is refused, for PUT and PATCH alike. */
  lemma NullCharacterNameRefused(s: Store, k: Id, partial: bool)
    requires k in s.users
    ensures ProfileUpdate(s, k, ProfileInput(Some("a\0"), None, None), partial) == Err(Invalid("name"))
  {
    assert Strip("a\0") == "a\0";
  }

  /** A name of spaces is blank once stripped, for PUT and PATCH alike. */
  lemma BlankNameRefused(s: Store, k: Id, partial: bool)
    requires k in s.users
    ensures ProfileUpdate(s, k, ProfileInput(Some(" "), None, None), partial) == Err(Invalid("name"))
  {
  }

  /** Whatever role the client sends, registration ignores it. */
  lemma RegisterIgnoresRequestedRole(s: Store, input: RegisterInput, role: Option<string>, emailWellFormed: bool, passwordAccepted: bool)
    ensures Register(s, input, emailWellFormed, passwordAccepted)
         == Register(s, input.(role := role), emailWellFormed, passwordAccepted)
  {
  }

  /** The read-only cart fields sent by a client change nothing. */
  lemma CartUpdateIgnoresReadOnlyFields(s: Store, k: Id, input: CartInput, partial: bool, user: Option<Id>, restaurant: Option<Id>, total: Option<Cents>)
    requires k in s.carts
    ensures CartUpdate(s, k, input, partial) == CartUpdate(s, k, input.(user := user, restaurant := restaurant, totalPrice := total), partial)
  {
  }

  lemma OrderUpdateIgnoresReadOnlyFields(s: Store, k: Id, input: OrderInput, status: Option<string>, total: Option<Cents>)
    requires k in s.orders
    ensures OrderUpdate(s, k, input) == OrderUpdate(s, k, input.(status := status, totalPrice := total))
  {
  }
}

=== FILE: text.dfy ===
/** Python's `str.strip()`, which Django REST Framework's CharField applies
    to every string it accepts (`trim_whitespace` defaults to true): the
    blank check, the field's validators and the stored value all see the
    stripped string. */
module Text {

  /** Python's `str.isspace()` for one character: the ASCII controls
      U+0009..U+000D and U+001C..U+001F, the space, U+0085, and the Unicode
      space and separator characters. */
  predicate IsSpace(c: char) {
    || ('\t' <= c <= '\r')
    || ('\U{1C}' <= c <= '\U{1F}')
    || c == ' ' || c == '\U{85}' || c == '\U{A0}' || c == '\U{1680}'
    || ('\U{2000}' <= c <= '\U{200A}')
    || c == '\U{2028}' || c == '\U{2029}' || c == '\U{202F}' || c == '\U{205F}' || c == '\U{3000}'
  }

  predicate AllSpace(s: string) {
    forall i | 0 <= i < |s| :: IsSpace(s[i])
  }

  /** `s.lstrip()`: the suffix left once the leading whitespace is gone
      (`TrimStartSpec`). */
  function TrimStart(s: string): (r: string)
    ensures |r| <= |s|
  {
    if s == [] || !IsSpace(s[0]) then s else TrimStart(s[1..])
  }

  lemma {:induction false} TrimStartSpec(s: string)
    ensures var r := TrimStart(s);
            && r == s[|s| - |r|..]
            && AllSpace(s[..|s| - |r|])
            && (r == [] || !IsSpace(r[0]))
  {
    if s != [] && IsSpace(s[0]) {
      TrimStartSpec(s[1..]);
      var r := TrimStart(s);
      assert s[..|s| - |r|] == [s[0]] + s[1..][..|s[1..]| - |r|];
    }
  }

  /** `s.rstrip()`: the prefix left once the trailing whitespace is gone
      (`TrimEndSpec`). */
  function TrimEnd(s: string): (r: string)
    ensures |r| <= |s|
  {
    if s == [] || !IsSpace(s[|s| - 1]) then s else TrimEnd(s[..|s| - 1])
  }

  lemma {:induction false} TrimEndSpec(s: string)
    ensures var r := TrimEnd(s);
            && r == s[..|r|]
            && AllSpace(s[|r|..])
            && (r == [] || !IsSpace(r[|r| - 1]))
  {
    if s != [] && IsSpace(s[|s| - 1]) {
      TrimEndSpec(s[..|s| - 1]);
      var r := TrimEnd(s);
      assert s[|r|..] == s[..|s| - 1][|r|..] + [s[|s| - 1]];
    }
  }

  /** `s.strip()`: the middle of `s` between its leading and trailing
      whitespace (`StripSpec`). */
  function Strip(s: string): (r: string)
    ensures |r| <= |s|
  {
    TrimEnd(TrimStart(s))
  }

  lemma StripSpec(s: string)
    ensures var r := Strip(s);
            && (exists i | 0 <= i <= |s| - |r| :: r == s[i..i + |r|] && AllSpace(s[..i]) && AllSpace(s[i + |r|..]))
            && (r == [] || (!IsSpace(r[0]) && !IsSpace(r[|r| - 1])))
  {
    var t := TrimStart(s);
    var r := TrimEnd(t);
    TrimStartSpec(s);
    TrimEndSpec(t);
    var i := |s| - |t|;
    assert r == s[i..i + |r|];
    assert s[i + |r|..] == t[|r|..];
  }

  /** A string strips to the blank string exactly when it is all
      whitespace; this is DRF's blank check. */
  lemma StripBlankIffAllSpace(s: string)
    ensures Strip(s) == "" <==> AllSpace(s)
  {
    StripSpec(s);
    var r := Strip(s);
    var i :| 0 <= i <= |s| - |r| && r == s[i..i + |r|] && AllSpace(s[..i]) && AllSpace(s[i + |r|..]);
    if r == "" {
      forall j | 0 <= j < |s|
        ensures IsSpace(s[j])
      {
        if j < i {
          assert s[j] == s[..i][j];
        } else {
          assert s[j] == s[i..][j - i];
        }
      }
    } else {
      assert r[0] == s[i];
    }
  }

  /** Stripping a stripped string changes nothing. */
  lemma StripIdempotent(s: string)
    ensures Strip(Strip(s)) == Strip(s)
  {
    StripSpec(s);
    var r := Strip(s);
    assert TrimStart(r) == r;
    assert TrimEnd(r) == r;
  }

  /** Two inputs that differ only in surrounding whitespace strip to the
      same value, so a check made after stripping cannot tell them apart. */
  lemma StripTrailingSpace()
    ensures Strip("pw ") == Strip("pw") == "pw"
  {
    assert TrimStart("pw ") == "pw ";
    assert TrimEnd("pw ") == TrimEnd("pw");
  }
}

=== FILE: views.dfy ===
/** The view sets of main_app/views.py: the listings each user may see, the
    cart actions, checkout (cart to order) and payment recording.

    Each request runs alone and to completion, so an operation is a function
    from the store before it to its answer. An `Err` answer carries no store:
    the request wrote nothing. */
module Views {
  import opened Outcomes
  import opened Ids
  import opened Models
  import opened Serializers
  import opened Text

  // Listings (querysets)

  /** MenuItemViewSet's queryset: every available menu item, of any
      restaurant. */
  function MenuItemList(s: Store): (r: map<Id, MenuItem>)
    ensures forall k :: k in r <==> k in s.menuItems && s.menuItems[k].available
    ensures forall k | k in r :: r[k] == s.menuItems[k]
  {
    map k | k in s.menuItems && s.menuItems[k].available :: s.menuItems[k]
  }

  /** CartViewSet.get_queryset. */
  function CartList(s: Store, u: Id): (r: map<Id, Cart>)
    ensures forall k :: k in r <==> k in s.carts && s.carts[k].user == u
    ensures forall k | k in r :: r[k] == s.carts[k]
  {
    map k | k in s.carts && s.carts[k].user == u :: s.carts[k]
  }

  /** OrderViewSet.get_queryset. */
  function OrderList(s: Store, u: Id): (r: map<Id, Order>)
    ensures forall k :: k in r <==> k in s.orders && s.orders[k].user == u
    ensures forall k | k in r :: r[k] == s.orders[k]
  {
    map k | k in s.orders && s.orders[k].user == u :: s.orders[k]
  }

  /** PaymentViewSet.get_queryset: payments whose order belongs to `u`. */
  function PaymentList(s: Store, u: Id): (r: map<Id, Payment>)
    ensures forall k :: k in r <==> k in s.payments && s.payments[k].order in s.orders
                                    && s.orders[s.payments[k].order].user == u
    ensures forall k | k in r :: r[k] == s.payments[k]
  {
    map k | k in s.payments && s.payments[k].order in s.orders && s.orders[s.payments[k].order].user == u :: s.payments[k]
  }

  /** `Cart.objects.filter(user=u).first()`: with no ordering declared, the
      lowest primary key among the user's carts. */
  function FirstCartOf(s: Store, u: Id): (r: Option<Id>)
    ensures r.None? <==> forall c | c in s.carts :: s.carts[c].user != u
    ensures r.Some? ==> r.value in s.carts && s.carts[r.value].user == u
    ensures r.Some? ==> forall c | c in s.carts && s.carts[c].user == u :: r.value <= c
  {
    var mine := set c | c in s.carts && s.carts[c].user == u;
    assert forall c | c in s.carts && s.carts[c].user == u :: c in mine;
    if mine == {} then None else Some(MinOf(mine))
  }

  // Cart actions

  function Emptied(cart: Cart): Cart {
    cart.(items := {}, totalPrice := 0)
  }

  /** CartViewSet.clear: empties the user's first cart and zeroes its total;
      a user without a cart is told it was not found. */
  function Clear(s: Store, u: Id): (r: Result<Store>)
    ensures r.Ok? <==> exists c :: c in s.carts && s.carts[c].user == u
    ensures r.Err? ==> r.error == NotFound
    ensures r.Ok? ==>
      var c := FirstCartOf(s, u).value;
      && r.value.carts.Keys == s.carts.Keys
      && r.value.carts[c].items == {} && r.value.carts[c].totalPrice == 0
      && r.value.carts[c].user == s.carts[c].user && r.value.carts[c].restaurant == s.carts[c].restaurant
      && (forall d | d in s.carts && d != c :: r.value.carts[d] == s.carts[d])
      && r.value == s.(carts := r.value.carts)
  {
    match FirstCartOf(s, u)
    case None => Err(NotFound)
    case Some(c) => Ok(s.(carts := s.carts[c := Emptied(s.carts[c])]))
  }

  /** `get_object()` then CartSerializer.update: only the requester's own
      carts can be updated. */
  function CartUpdateView(s: Store, u: Id, k: Id, input: CartInput, partial: bool): (r: Result<Store>)
    ensures k !in s.carts || s.carts[k].user != u ==> r == Err(NotFound)
    ensures r.Ok? ==> k in s.carts && s.carts[k].user == u && r == CartUpdate(s, k, input, partial)
    ensures k in s.carts && s.carts[k].user == u ==> r == CartUpdate(s, k, input, partial)
  {
    if k !in CartList(s, u) then Err(NotFound) else CartUpdate(s, k, input, partial)
  }

  function OrderUpdateView(s: Store, u: Id, k: Id, input: OrderInput): (r: Result<Store>)
    ensures k !in s.orders || s.orders[k].user != u ==> r == Err(NotFound)
    ensures r.Ok? ==> k in s.orders && s.orders[k].user == u && r == OrderUpdate(s, k, input)
    ensures k in s.orders && s.orders[k].user == u ==> r == OrderUpdate(s, k, input)
  {
    if k !in OrderList(s, u) then Err(NotFound) else OrderUpdate(s, k, input)
  }

  function PaymentUpdateView(s: Store, u: Id, k: Id, input: PaymentInput, partial: bool): (r: Result<Store>)
    ensures k !in PaymentList(s, u) ==> r == Err(NotFound)
    ensures r.Ok? ==> k in s.payments && s.orders[s.payments[k].order].user == u && r == PaymentUpdate(s, k, input, partial)
    ensures k in PaymentList(s, u) ==> k in s.payments && r == PaymentUpdate(s, k, input, partial)
  {
    if k !in PaymentList(s, u) then Err(NotFound) else PaymentUpdate(s, k, input, partial)
  }

  // Checkout

  /** The line item checkout writes for one menu item: quantity 1 and the
      item's current price times that quantity. */
  function LineFor(order: Id, item: Id, menu: map<Id, MenuItem>): OrderItem
    requires item in menu
  {
    var quantity := 1;
    OrderItem(order, item, quantity, menu[item].price * quantity)
  }

  /** `after` keeps every row of `before` unchanged. */
  predicate Extends(before: map<Id, OrderItem>, after: map<Id, OrderItem>) {
    before.Keys <= after.Keys && forall k | k in before :: after[k] == before[k]
  }

  /** Every row `after` adds is a line of `order` for a member of `items`,
      with quantity 1 and the menu price. */
  predicate NewLinesPriced(before: map<Id, OrderItem>, after: map<Id, OrderItem>, order: Id, items: set<Id>, menu: map<Id, MenuItem>) {
    forall k | k in after && k !in before ::
      && after[k].order == order
      && after[k].quantity == 1
      && after[k].item in items
      && after[k].item in menu
      && after[k].price == menu[after[k].item].price
  }

  /** Every member of `items` has an added row. */
  ghost predicate CoversItems(before: map<Id, OrderItem>, after: map<Id, OrderItem>, items: set<Id>) {
    forall x | x in items :: exists k :: k in after && k !in before && after[k].item == x
  }

  /** No two added rows are for the same menu item. */
  predicate OneLinePerItem(before: map<Id, OrderItem>, after: map<Id, OrderItem>) {
    forall k1, k2 | k1 in after && k1 !in before && k2 in after && k2 !in before && after[k1].item == after[k2].item :: k1 == k2
  }

  /** Every added key is above every key of `before`. */
  predicate KeysAbove(before: map<Id, OrderItem>, after: map<Id, OrderItem>) {
    forall k, j | k in after && k !in before && j in before :: j < k
  }

  /** `after` is `before` plus one new line item of `order` per menu item in
      `items` (and no other), each priced from `menu`, each under a key
      above every key already in use. */
  ghost predicate IsSnapshot(before: map<Id, OrderItem>, after: map<Id, OrderItem>, order: Id, items: set<Id>, menu: map<Id, MenuItem>) {
    && Extends(before, after)
    && NewLinesPriced(before, after, order, items, menu)
    && CoversItems(before, after, items)
    && OneLinePerItem(before, after)
    && KeysAbove(before, after)
    && |after| == |before| + |items|
  }

  /** The loop over `cart.items.all()`: one `OrderItem.objects.create` per
      item, in ascending item key (the database's order is unspecified). */
  function AddLineItems(lines: map<Id, OrderItem>, order: Id, items: set<Id>, menu: map<Id, MenuItem>): (r: map<Id, OrderItem>)
    requires items <= menu.Keys
    ensures IsSnapshot(lines, r, order, items, menu)
    decreases items
  {
    if items == {} then lines
    else
      var x := MinOf(items);
      var f := FreshId(lines.Keys);
      var lines' := lines[f := LineFor(order, x, menu)];
      var r := AddLineItems(lines', order, items - {x}, menu);
      SnapshotStep(lines, f, x, r, order, items, menu);
      r
  }

  /** One iteration of the loop: adding the line for `x` under a fresh key
      `f`, then the lines for the rest, adds the lines for all of `items`. */
  lemma SnapshotStep(lines: map<Id, OrderItem>, f: Id, x: Id, r: map<Id, OrderItem>, order: Id, items: set<Id>, menu: map<Id, MenuItem>)
    requires items <= menu.Keys && x in items
    requires f !in lines && forall j | j in lines :: j < f
    requires IsSnapshot(lines[f := LineFor(order, x, menu)], r, order, items - {x}, menu)
    ensures IsSnapshot(lines, r, order, items, menu)
  {
    var lines' := lines[f := LineFor(order, x, menu)];
    assert Extends(lines', r);
    assert f in r && r[f] == LineFor(order, x, menu);
    assert Extends(lines, r);
    StepPriced(lines, lines', f, x, r, order, items, menu);
    StepCovers(lines, lines', f, x, r, items);
    StepOneLine(lines, lines', f, x, r, items);
    StepKeysAbove(lines, lines', f, r);
    assert |lines'| == |lines| + 1;
    assert |items - {x}| == |items| - 1;
  }

  lemma StepPriced(lines: map<Id, OrderItem>, lines': map<Id, OrderItem>, f: Id, x: Id, r: map<Id, OrderItem>, order: Id, items: set<Id>, menu: map<Id, MenuItem>)
    requires x in items && x in menu
    requires lines' == lines[f := LineFor(order, x, menu)]
    requires Extends(lines', r)
    requires NewLinesPriced(lines', r, order, items - {x}, menu)
    ensures NewLinesPriced(lines, r, order, items, menu)
  {
    forall k | k in r && k !in lines
      ensures r[k].order == order && r[k].quantity == 1 && r[k].item in items
      ensures r[k].item in menu && r[k].price == menu[r[k].item].price
    {
      if k == f {
        assert r[k] == LineFor(order, x, menu);
      } else {
        assert k !in lines';
      }
    }
  }

  lemma StepCovers(lines: map<Id, OrderItem>, lines': map<Id, OrderItem>, f: Id, x: Id, r: map<Id, OrderItem>, items: set<Id>)
    requires x in items && f !in lines
    requires f in lines' && lines' == lines[f := lines'[f]] && lines'[f].item == x
    requires Extends(lines', r)
    requires CoversItems(lines', r, items - {x})
    ensures CoversItems(lines, r, items)
  {
    forall y | y in items
      ensures exists k :: k in r && k !in lines && r[k].item == y
    {
      if y == x {
        assert f in r && f !in lines && r[f].item == y;
      } else {
        assert y in items - {x};
        var k :| k in r && k !in lines' && r[k].item == y;
        assert k !in lines;
      }
    }
  }

  lemma StepOneLine(lines: map<Id, OrderItem>, lines': map<Id, OrderItem>, f: Id, x: Id, r: map<Id, OrderItem>, items: set<Id>)
    requires f in lines' && lines' == lines[f := lines'[f]] && lines'[f].item == x
    requires Extends(lines', r)
    requires forall k | k in r && k !in lines' :: r[k].item in items - {x}
    requires OneLinePerItem(lines', r)
    ensures OneLinePerItem(lines, r)
  {
    assert f in r && r[f].item == x;
    assert forall k | k in r && k !in lines && k != f :: k !in lines' && r[k].item in items - {x};
  }

  lemma StepKeysAbove(lines: map<Id, OrderItem>, lines': map<Id, OrderItem>, f: Id, r: map<Id, OrderItem>)
    requires f !in lines && forall j | j in lines :: j < f
    requires lines'.Keys == lines.Keys + {f}
    requires KeysAbove(lines', r)
    ensures KeysAbove(lines, r)
  {
    forall k, j | k in r && k !in lines && j in lines
      ensures j < k
    {
      if k != f {
        assert k !in lines' && j in lines';
      }
    }
  }

  /** OrderViewSet.create. The user's first cart must exist and hold at
      least one item. The order copies the cart's restaurant and stored
      total, has no table and status 'pending'; each cart item becomes one
      line item; then the cart is emptied and its total zeroed. */
  function Checkout(s: Store, u: Id): (r: Result<Created>)
    requires Valid(s)
    ensures r.Err? <==> FirstCartOf(s, u).None? || s.carts[FirstCartOf(s, u).value].items == {}
    ensures r.Err? ==> r.error == EmptyCart
    ensures r.Ok? ==>
      var c := FirstCartOf(s, u).value;
      var cart := s.carts[c];
      var s', o := r.value.store, r.value.id;
      && o !in s.orders
      && s'.orders == s.orders[o := Order(cart.restaurant, None, u, cart.totalPrice, PendingStatus)]
      && IsSnapshot(s.orderItems, s'.orderItems, o, cart.items, s.menuItems)
      && s'.carts == s.carts[c := Emptied(cart)]
      && s' == s.(orders := s'.orders, orderItems := s'.orderItems, carts := s'.carts)
  {
    match FirstCartOf(s, u)
    case None => Err(EmptyCart)
    case Some(c) =>
      var cart := s.carts[c];
      if cart.items == {} then Err(EmptyCart)
      else
        var o := FreshId(s.orders.Keys);
        var order := Order(cart.restaurant, None, u, cart.totalPrice, PendingStatus);
        var lines := AddLineItems(s.orderItems, o, cart.items, s.menuItems);
        Ok(Created(s.(orders := s.orders[o := order], orderItems := lines, carts := s.carts[c := Emptied(cart)]), o))
  }

  // Payment

  /** PaymentViewSet.create: validates the input, saves the payment under
      the requester's restaurant with the column default status '', then
      overwrites the status with 'completed' (no gateway is consulted). A
      requester without a restaurant violates NOT NULL. */
  function RecordPayment(s: Store, requester: User, input: PaymentInput): (r: Result<Created>)
    ensures r.Ok? <==> ValidatePayment(s, input, false).Ok? && requester.restaurant.Some?
    ensures ValidatePayment(s, input, false).Err? ==> r == Err(ValidatePayment(s, input, false).error)
    ensures ValidatePayment(s, input, false).Ok? && requester.restaurant.None? ==> r == Err(Integrity("restaurant"))
    ensures r.Ok? ==> r.value.id !in s.payments && r.value.id in r.value.store.payments
    ensures r.Ok? ==>
      var p := r.value.store.payments[r.value.id];
      && r.value.store == s.(payments := s.payments[r.value.id := p])
      && p.status == CompletedStatus
      && p.restaurant == requester.restaurant.value
      && p.order == input.order.value
      && p.paymentMethod == Strip(input.paymentMethod.value)
      && p.amount == input.amount.value
      && p.transactionId == (if input.transactionId.Some? then StripNullable(input.transactionId).value else None)
  {
    match ValidatePayment(s, input, false)
    case Err(e) => Err(e)
    case Ok(f) =>
      if requester.restaurant.None? then Err(Integrity("restaurant"))
      else
        var k := FreshId(s.payments.Keys);
        var saved := Payment(f.order.value, requester.restaurant.value, f.paymentMethod.value, "", f.amount.value, Pick(f.transactionId, None));
        var completed := saved.(status := CompletedStatus);
        Ok(Created(s.(payments := s.payments[k := completed]), k))
  }

  // The cart endpoint (CartViewSet.create)

  /** The store after a request and its answer, for a request that can
      fail after it has already written. */
  datatype Reply = Reply(store: Store, result: Result<Id>)

  /** The lookup of `get_or_create(user=u, restaurant=restaurant)`; a null
      restaurant matches no cart, since the column is NOT NULL. */
  predicate CartMatches(cart: Cart, u: Id, restaurant: Option<Id>) {
    cart.user == u && Some(cart.restaurant) == restaurant
  }

  /** `Cart.objects.get_or_create(user=u, restaurant=restaurant)`: the one
      matching cart, else a new empty one; several matches raise, and a null
      restaurant fails the NOT NULL column on insert. */
  function FindOrCreateCart(s: Store, u: Id, restaurant: Option<Id>): (r: Result<Created>)
    ensures r.Ok? <==>
      && restaurant.Some?
      && (forall c1, c2 | c1 in s.carts && c2 in s.carts && CartMatches(s.carts[c1], u, restaurant) && CartMatches(s.carts[c2], u, restaurant) :: c1 == c2)
    ensures r.Err? ==> r.error == (if restaurant.None? then Integrity("restaurant") else MultipleObjectsReturned)
    ensures r.Ok? ==> forall c | c in s.carts && CartMatches(s.carts[c], u, restaurant) :: r.value.id == c && r.value.store == s
    ensures r.Ok? ==> restaurant.Some? && r.value.id in r.value.store.carts
    ensures r.Ok? ==> r.value.store.carts[r.value.id].user == u && r.value.store.carts[r.value.id].restaurant == restaurant.value
    ensures r.Ok? && r.value.id in s.carts ==> r.value.store == s
    ensures r.Ok? && r.value.id !in s.carts ==>
      && (forall c | c in s.carts :: !(s.carts[c].user == u && s.carts[c].restaurant == restaurant.value))
      && r.value.store == s.(carts := s.carts[r.value.id := Cart(u, restaurant.value, {}, 0)])
    ensures r.Err? && r.error == MultipleObjectsReturned ==>
      exists c1, c2 :: c1 in s.carts && c2 in s.carts && c1 != c2
                       && s.carts[c1].user == u && Some(s.carts[c1].restaurant) == restaurant
                       && s.carts[c2].user == u && Some(s.carts[c2].restaurant) == restaurant
  {
    var matches := set c | c in s.carts && s.carts[c].user == u && Some(s.carts[c].restaurant) == restaurant;
    assert forall c | c in s.carts && s.carts[c].user == u && Some(s.carts[c].restaurant) == restaurant :: c in matches;
    if matches == {} then
      if restaurant.None? then Err(Integrity("restaurant"))
      else
        var k := FreshId(s.carts.Keys);
        Ok(Created(s.(carts := s.carts[k := Cart(u, restaurant.value, {}, 0)]), k))
    else
      var c := MinOf(matches);
      if matches == {c} then Ok(Created(s, c))
      else
        var c2 := MinOf(matches - {c});
        assert c2 in matches && c2 != c;
        Err(MultipleObjectsReturned)
  }

  /** CartViewSet.create as the source has it: `get_or_create` returns an
      `(object, created)` pair and the pair itself is handed to the
      serializer, so `save()` looks up `items` or `save` on a tuple. Any cart
      `get_or_create` made stays in the store. */
  function CartViewCreateAsWritten(s: Store, u: Id, restaurant: Option<Id>, input: CartInput): (r: Reply)
    ensures r.result.Err?
    ensures FindOrCreateCart(s, u, restaurant).Ok? ==> r.store == FindOrCreateCart(s, u, restaurant).value.store
    ensures FindOrCreateCart(s, u, restaurant).Ok? && ValidateCart(s, input, true).Ok? ==> r.result == Err(AttributeError)
    ensures FindOrCreateCart(s, u, restaurant).Err? ==> r == Reply(s, Err(FindOrCreateCart(s, u, restaurant).error))
    ensures FindOrCreateCart(s, u, restaurant).Ok? && ValidateCart(s, input, true).Err? ==> r.result == Err(Invalid("item_ids"))
  {
    match FindOrCreateCart(s, u, restaurant)
    case Err(e) => Reply(s, Err(e))
    case Ok(Created(s1, _)) =>
      match ValidateCart(s1, input, true)
      case Err(e) => Reply(s1, Err(e))
      case Ok(_) => Reply(s1, Err(AttributeError))
  }

  /** CartViewSet.create with the pair unpacked (`cart, _ = get_or_create(...)`):
      the requester's cart for their restaurant, found or created, gets the
      requested item set. */
  function CartViewCreate(s: Store, u: Id, restaurant: Option<Id>, input: CartInput): (r: Reply)
    ensures r.result.Ok? <==> FindOrCreateCart(s, u, restaurant).Ok? && ValidateCart(s, input, true).Ok?
    ensures FindOrCreateCart(s, u, restaurant).Err? ==> r == Reply(s, Err(FindOrCreateCart(s, u, restaurant).error))
    ensures FindOrCreateCart(s, u, restaurant).Ok? && r.result.Err? ==>
      r == Reply(FindOrCreateCart(s, u, restaurant).value.store, Err(Invalid("item_ids")))
    ensures r.result.Ok? ==>
      var c := r.result.value;
      && r.store == s.(carts := r.store.carts)
      && r.store.carts.Keys == s.carts.Keys + {c}
      && (forall d | d in s.carts && d != c :: r.store.carts[d] == s.carts[d])
    ensures r.result.Ok? ==>
      var c := r.result.value;
      && c in r.store.carts
      && r.store.carts[c].user == u
      && Some(r.store.carts[c].restaurant) == restaurant
      && r.store.carts[c].totalPrice == (if c in s.carts then s.carts[c].totalPrice else 0)
      && (input.itemIds.Some? ==> forall x :: x in r.store.carts[c].items <==> x in input.itemIds.value)
      && (input.itemIds.None? ==> r.store.carts[c].items == (if c in s.carts then s.carts[c].items else {}))
  {
    match FindOrCreateCart(s, u, restaurant)
    case Err(e) => Reply(s, Err(e))
    case Ok(Created(s1, c)) =>
      assert s1.menuItems == s.menuItems;
      match CartUpdate(s1, c, input, true)
      case Err(e) => Reply(s1, Err(e))
      case Ok(s2) => Reply(s2, Ok(c))
  }
}

=== FILE: workflow.dfy ===
/** Properties that relate several operations of the cart -> order ->
    payment workflow: the schema invariant each write preserves, idempotence
    and last-writer-wins of the cart actions, what a second checkout sees,
    who can see the rows a request creates, and the consequences of the cart
    total never being recomputed. */
module Workflow {
  import opened Outcomes
  import opened Ids
  import opened Models
  import opened Serializers
  import opened Views

  // The schema invariant is preserved by every write of the workflow.

  lemma CheckoutKeepsValid(s: Store, u: Id, c: Id)
    requires Valid(s) && u in s.users
    requires FirstCartOf(s, u) == Some(c) && s.carts[c].items != {}
    ensures Valid(Checkout(s, u).value.store)
  {
    var s', o := Checkout(s, u).value.store, Checkout(s, u).value.id;
    assert s'.carts == s.carts[c := Emptied(s.carts[c])];
    assert s'.users == s.users && s'.menuItems == s.menuItems && s'.tables == s.tables && s'.payments == s.payments;
    forall k | k in s'.carts
      ensures s'.carts[k].user in s'.users && s'.carts[k].items <= s'.menuItems.Keys
    {
      if k != c {
        assert s'.carts[k] == s.carts[k];
      }
    }
    assert IsSnapshot(s.orderItems, s'.orderItems, o, s.carts[c].items, s.menuItems);
    assert Extends(s.orderItems, s'.orderItems);
    assert NewLinesPriced(s.orderItems, s'.orderItems, o, s.carts[c].items, s.menuItems);
    forall k | k in s'.orderItems
      ensures s'.orderItems[k].order in s'.orders && s'.orderItems[k].item in s'.menuItems
    {
      if k in s.orderItems {
        assert s'.orderItems[k] == s.orderItems[k];
      }
    }
    assert ReferencesResolve(s');
  }

  lemma ClearKeepsValid(s: Store, u: Id)
    requires Valid(s) && Clear(s, u).Ok?
    ensures Valid(Clear(s, u).value)
  {
  }

  lemma CartUpdateKeepsValid(s: Store, k: Id, input: CartInput, partial: bool)
    requires Valid(s) && k in s.carts && CartUpdate(s, k, input, partial).Ok?
    ensures Valid(CartUpdate(s, k, input, partial).value)
  {
    var s' := CartUpdate(s, k, input, partial).value;
    assert forall c | c in s'.carts :: s'.carts[c].user in s'.users && s'.carts[c].items <= s'.menuItems.Keys;
  }

  lemma CartCreateKeepsValid(s: Store, input: CartInput, partial: bool, user: Id, restaurant: Id)
    requires Valid(s) && user in s.users
    requires CartCreate(s, input, partial, Some(user), Some(restaurant)).Ok?
    ensures Valid(CartCreate(s, input, partial, Some(user), Some(restaurant)).value.store)
  {
  }

  lemma FindOrCreateCartKeepsValid(s: Store, u: Id, restaurant: Option<Id>)
    requires Valid(s) && u in s.users && FindOrCreateCart(s, u, restaurant).Ok?
    ensures Valid(FindOrCreateCart(s, u, restaurant).value.store)
  {
  }

  lemma OrderUpdateKeepsValid(s: Store, k: Id, input: OrderInput)
    requires Valid(s) && k in s.orders && OrderUpdate(s, k, input).Ok?
    ensures Valid(OrderUpdate(s, k, input).value)
  {
    var s' := OrderUpdate(s, k, input).value;
    assert forall o | o in s'.orders ::
      s'.orders[o].user in s'.users && (s'.orders[o].table.Some? ==> s'.orders[o].table.value in s'.tables);
  }

  lemma PaymentUpdateKeepsValid(s: Store, k: Id, input: PaymentInput, partial: bool)
    requires Valid(s) && k in s.payments && PaymentUpdate(s, k, input, partial).Ok?
    ensures Valid(PaymentUpdate(s, k, input, partial).value)
  {
    var s' := PaymentUpdate(s, k, input, partial).value;
    assert forall p | p in s'.payments :: s'.payments[p].order in s'.orders;
  }

  lemma ProfileUpdateKeepsValid(s: Store, k: Id, input: ProfileInput, partial: bool)
    requires Valid(s) && k in s.users && ProfileUpdate(s, k, input, partial).Ok?
    ensures Valid(ProfileUpdate(s, k, input, partial).value)
  {
    var s' := ProfileUpdate(s, k, input, partial).value;
    assert forall j | j in s'.users :: s'.users[j].email == s.users[j].email && s'.users[j].username == s.users[j].username;
  }

  lemma RecordPaymentKeepsValid(s: Store, requester: User, input: PaymentInput)
    requires Valid(s) && RecordPayment(s, requester, input).Ok?
    ensures Valid(RecordPayment(s, requester, input).value.store)
  {
  }

  /** Which cart is a user's first depends only on the carts' keys and
      owners. */
  lemma FirstCartOfFrame(s: Store, s1: Store, u: Id)
    requires s1.carts.Keys == s.carts.Keys
    requires forall d | d in s.carts :: s1.carts[d].user == s.carts[d].user
    ensures FirstCartOf(s1, u) == FirstCartOf(s, u)
  {
    assert (set c | c in s1.carts && s1.carts[c].user == u) == (set c | c in s.carts && s.carts[c].user == u);
  }

  // Cart actions

  /** Clearing twice is clearing once, and it succeeds on a cart that is
      already empty. */
  lemma ClearIdempotent(s: Store, u: Id)
    requires Clear(s, u).Ok?
    ensures Clear(Clear(s, u).value, u) == Clear(s, u)
  {
    var s1 := Clear(s, u).value;
    var c := FirstCartOf(s, u).value;
    FirstCartOfFrame(s, s1, u);
    assert s1.carts[c] == Emptied(s1.carts[c]);
    assert s1.carts[c := Emptied(s1.carts[c])] == s1.carts;
  }

  /** An update with an item list discards the previous set: two updates in
      a row leave what the second one sent. */
  lemma CartUpdateLastWriterWins(s: Store, k: Id, first: CartInput, p1: bool, second: CartInput, p2: bool)
    requires k in s.carts
    requires CartUpdate(s, k, first, p1).Ok? && second.itemIds.Some?
    ensures k in CartUpdate(s, k, first, p1).value.carts
    ensures CartUpdate(CartUpdate(s, k, first, p1).value, k, second, p2) == CartUpdate(s, k, second, p2)
  {
    var s1 := CartUpdate(s, k, first, p1).value;
    var v := s1.carts[k];
    assert s1 == s.(carts := s.carts[k := v]);
    assert ResolveItemIds(s1, second.itemIds.value) == ResolveItemIds(s, second.itemIds.value);
    CartUpdateWithItems(s1, k, second, p2);
    CartUpdateWithItems(s, k, second, p2);
    var items := ResolveItemIds(s, second.itemIds.value);
    if items.Ok? {
      assert v.(items := items.value) == s.carts[k].(items := items.value);
      assert s.carts[k := v][k := v.(items := items.value)] == s.carts[k := s.carts[k].(items := items.value)];
    }
  }

  /** An update that sends an item list, unfolded. */
  lemma CartUpdateWithItems(s: Store, k: Id, input: CartInput, partial: bool)
    requires k in s.carts && input.itemIds.Some?
    ensures CartUpdate(s, k, input, partial)
         == (match ResolveItemIds(s, input.itemIds.value)
             case Ok(items) => Ok(s.(carts := s.carts[k := s.carts[k].(items := items)]))
             case Err(e) => Err(e))
  {
  }

  // Checkout

  /** A second checkout right after a successful one finds the cart empty
      and creates nothing. */
  lemma SecondCheckoutFails(s: Store, u: Id, c: Id)
    requires Valid(s) && u in s.users && FirstCartOf(s, u) == Some(c) && s.carts[c].items != {}
    ensures Checkout(s, u).Ok? && Valid(Checkout(s, u).value.store)
    ensures Checkout(Checkout(s, u).value.store, u) == Err(EmptyCart)
  {
    CheckoutKeepsValid(s, u, c);
    var s1 := Checkout(s, u).value.store;
    FirstCartAfterCheckout(s, u, c);
    EmptyFirstCartRefused(s1, u, c);
  }

  lemma FirstCartAfterCheckout(s: Store, u: Id, c: Id)
    requires Valid(s) && FirstCartOf(s, u) == Some(c) && s.carts[c].items != {}
    ensures Checkout(s, u).Ok? && FirstCartOf(Checkout(s, u).value.store, u) == Some(c)
    ensures Checkout(s, u).value.store.carts[c].items == {}
  {
    var s1 := Checkout(s, u).value.store;
    assert s1.carts == s.carts[c := Emptied(s.carts[c])];
    FirstCartOfFrame(s, s1, u);
  }

  lemma EmptyFirstCartRefused(s: Store, u: Id, c: Id)
    requires Valid(s) && FirstCartOf(s, u) == Some(c) && s.carts[c].items == {}
    ensures Checkout(s, u) == Err(EmptyCart)
  {
  }

  /** The order checkout creates is listed for its buyer and for nobody
      else. */
  lemma CheckoutVisibleOnlyToBuyer(s: Store, u: Id, c: Id, v: Id)
    requires Valid(s) && FirstCartOf(s, u) == Some(c) && s.carts[c].items != {} && v != u
    ensures Checkout(s, u).Ok?
    ensures Checkout(s, u).value.id in OrderList(Checkout(s, u).value.store, u)
    ensures Checkout(s, u).value.id !in OrderList(Checkout(s, u).value.store, v)
    ensures OrderList(Checkout(s, u).value.store, v) == OrderList(s, v)
  {
    var s1, o := Checkout(s, u).value.store, Checkout(s, u).value.id;
    OrderListInsert(s, s1, o, s1.orders[o], v);
  }

  lemma OrderListInsert(s: Store, s1: Store, o: Id, order: Order, v: Id)
    requires order.user != v && o !in s.orders && s1.orders == s.orders[o := order]
    ensures OrderList(s1, v) == OrderList(s, v)
  {
    forall k
      ensures k in OrderList(s1, v) <==> k in OrderList(s, v)
    {
      if k == o {
      }
    }
    assert OrderList(s1, v).Keys == OrderList(s, v).Keys;
  }

  /** Checkout touches only the buyer's own first cart and leaves the menu
      listing alone. */
  lemma CheckoutLeavesOthersAlone(s: Store, u: Id, c: Id, v: Id)
    requires Valid(s) && FirstCartOf(s, u) == Some(c) && s.carts[c].items != {} && v != u
    ensures Checkout(s, u).Ok?
    ensures CartList(Checkout(s, u).value.store, v) == CartList(s, v)
    ensures MenuItemList(Checkout(s, u).value.store) == MenuItemList(s)
  {
    var s1 := Checkout(s, u).value.store;
    CartListOwnUpdate(s, s1, c, Emptied(s.carts[c]), v);
    MenuItemListFrame(s, s1);
  }

  lemma CartListOwnUpdate(s: Store, s1: Store, c: Id, cart: Cart, v: Id)
    requires c in s.carts && s.carts[c].user != v && cart.user == s.carts[c].user
    requires s1.carts == s.carts[c := cart]
    ensures CartList(s1, v) == CartList(s, v)
  {
    forall k
      ensures k in CartList(s1, v) <==> k in CartList(s, v)
    {
      if k == c {
      }
    }
    assert CartList(s1, v).Keys == CartList(s, v).Keys;
  }

  lemma MenuItemListFrame(s: Store, s1: Store)
    requires s1.menuItems == s.menuItems
    ensures MenuItemList(s1) == MenuItemList(s)
  {
    assert MenuItemList(s1).Keys == MenuItemList(s).Keys;
  }

  /** Every item of the checked-out cart has a line of the new order with
      quantity 1 and the item's price. */
  lemma CheckoutLinesMatchCart(s: Store, u: Id, c: Id, x: Id)
    requires Valid(s) && FirstCartOf(s, u) == Some(c) && x in s.carts[c].items
    ensures Checkout(s, u).Ok?
    ensures var s1, o := Checkout(s, u).value.store, Checkout(s, u).value.id;
            exists k :: k in s1.orderItems && s1.orderItems[k].order == o && s1.orderItems[k].item == x
                        && s1.orderItems[k].quantity == 1 && s1.orderItems[k].price == s.menuItems[x].price
  {
    var s1, o := Checkout(s, u).value.store, Checkout(s, u).value.id;
    var items := s.carts[c].items;
    assert CoversItems(s.orderItems, s1.orderItems, items);
    var k :| k in s1.orderItems && k !in s.orderItems && s1.orderItems[k].item == x;
    assert NewLinesPriced(s.orderItems, s1.orderItems, o, items, s.menuItems);
  }

  // The stored cart total.

  /** Every cart's stored total is 0. */
  predicate CartTotalsZero(s: Store) {
    forall c | c in s.carts :: s.carts[c].totalPrice == 0
  }

  /** No cart operation ever writes a non-zero total: a new cart takes the
      default 0, an update keeps the total, clear and checkout reset it. */
  lemma ClearKeepsTotalsZero(s: Store, u: Id)
    requires CartTotalsZero(s) && Clear(s, u).Ok?
    ensures CartTotalsZero(Clear(s, u).value)
  {
  }

  lemma CheckoutKeepsTotalsZero(s: Store, u: Id, c: Id)
    requires Valid(s) && CartTotalsZero(s) && FirstCartOf(s, u) == Some(c) && s.carts[c].items != {}
    ensures Checkout(s, u).Ok? && CartTotalsZero(Checkout(s, u).value.store)
  {
    assert Checkout(s, u).value.store.carts == s.carts[c := Emptied(s.carts[c])];
  }

  lemma CartUpdateKeepsTotalsZero(s: Store, k: Id, input: CartInput, partial: bool)
    requires CartTotalsZero(s) && k in s.carts && CartUpdate(s, k, input, partial).Ok?
    ensures CartTotalsZero(CartUpdate(s, k, input, partial).value)
  {
  }

  lemma CartCreateKeepsTotalsZero(s: Store, input: CartInput, partial: bool, user: Option<Id>, restaurant: Option<Id>)
    requires CartTotalsZero(s) && CartCreate(s, input, partial, user, restaurant).Ok?
    ensures CartTotalsZero(CartCreate(s, input, partial, user, restaurant).value.store)
  {
  }

  lemma CartEndpointKeepsTotalsZero(s: Store, u: Id, restaurant: Option<Id>, input: CartInput)
    requires CartTotalsZero(s)
    ensures FindOrCreateCart(s, u, restaurant).Ok? ==> CartTotalsZero(FindOrCreateCart(s, u, restaurant).value.store)
    ensures CartTotalsZero(CartViewCreate(s, u, restaurant, input).store)
  {
    match FindOrCreateCart(s, u, restaurant)
    case Err(_) =>
    case Ok(Created(s1, c)) =>
      assert CartTotalsZero(s1);
      if CartUpdate(s1, c, input, true).Ok? {
        CartUpdateKeepsTotalsZero(s1, c, input, true);
      }
  }

  /** Hence an order placed from such a store records a total of 0, however
      much its line items cost. */
  lemma CheckoutTotalIsStoredZero(s: Store, u: Id, c: Id)
    requires Valid(s) && CartTotalsZero(s) && FirstCartOf(s, u) == Some(c) && s.carts[c].items != {}
    ensures Checkout(s, u).Ok?
    ensures Checkout(s, u).value.store.orders[Checkout(s, u).value.id].totalPrice == 0
  {
  }

  /** The two-item example: menu items priced 1000 and 1500 cents in the
      buyer's only cart, whose stored total is 0 as every cart operation
      leaves it. Checkout writes lines of 1000 and 1500 cents for an order
      whose total is 0, not 2500. */
  lemma TwoItemCheckoutExample()
    ensures var a := MenuItem(1, 1, "A", 1000, true);
            var b := MenuItem(1, 1, "B", 1500, true);
            var s := EmptyStore.(users := map[7 := User("e", "e", "n", CustomerRole, Some(1))],
                                 menuItems := map[1 := a, 2 := b],
                                 carts := map[3 := Cart(7, 1, {1, 2}, 0)]);
            && Checkout(s, 7).Ok?
            && var s1, o := Checkout(s, 7).value.store, Checkout(s, 7).value.id;
            && s1.orders[o].totalPrice == 0
            && (exists k :: k in s1.orderItems && s1.orderItems[k].order == o && s1.orderItems[k].price == 1000)
            && (exists k :: k in s1.orderItems && s1.orderItems[k].order == o && s1.orderItems[k].price == 1500)
            && s1.carts[3].items == {}
  {
    var a := MenuItem(1, 1, "A", 1000, true);
    var b := MenuItem(1, 1, "B", 1500, true);
    var s := EmptyStore.(users := map[7 := User("e", "e", "n", CustomerRole, Some(1))],
                         menuItems := map[1 := a, 2 := b],
                         carts := map[3 := Cart(7, 1, {1, 2}, 0)]);
    assert Valid(s);
    assert 3 in s.carts && s.carts[3].user == 7;
    assert s.carts.Keys == {3};
    assert FirstCartOf(s, 7) == Some(3);
    CheckoutLinesMatchCart(s, 7, 3, 1);
    CheckoutLinesMatchCart(s, 7, 3, 2);
  }

  // Payment

  /** The recorded payment ends 'completed' and under the requester's
      restaurant whatever amount, status or restaurant the client sent. */
  lemma RecordPaymentIgnoresReadOnlyFields(s: Store, requester: User, input: PaymentInput, status: Option<string>, restaurant: Option<Id>)
    ensures RecordPayment(s, requester, input) == RecordPayment(s, requester, input.(status := status, restaurant := restaurant))
  {
  }

  /** The `order` of a new payment may be any order, so a payment recorded
      against someone else's order is then not listed for its payer. */
  lemma PaymentOnOthersOrderUnlisted(s: Store, requester: Id, requesterRow: User, input: PaymentInput)
    requires RecordPayment(s, requesterRow, input).Ok?
    requires s.orders[input.order.value].user != requester
    ensures RecordPayment(s, requesterRow, input).value.id !in PaymentList(RecordPayment(s, requesterRow, input).value.store, requester)
  {
  }

  // The cart endpoint

  /** The cart endpoint as written: for a user with no cart yet and a valid
      item list, the request fails with an AttributeError, yet the empty cart
      `get_or_create` made stays behind. With the pair unpacked the same
      request succeeds. */
  lemma CartEndpointAsWrittenFails(s: Store, u: Id, restaurant: Id, input: CartInput)
    requires forall c | c in s.carts :: s.carts[c].user != u
    requires ValidateCart(s, input, true).Ok?
    ensures CartViewCreateAsWritten(s, u, Some(restaurant), input).result == Err(AttributeError)
    ensures exists c :: c in CartViewCreateAsWritten(s, u, Some(restaurant), input).store.carts && c !in s.carts
    ensures CartViewCreate(s, u, Some(restaurant), input).result.Ok?
  {
    var f := FindOrCreateCart(s, u, Some(restaurant));
    assert f.Ok? && f.value.id !in s.carts;
    assert f.value.store.menuItems == s.menuItems;
  }
}
